=== FILE: README.md ===
# Geometry-Dash-style runner: a Dafny model of its game loop

This project models the simulation core of `privet.py`, a pygame side-scroller.
The player's square stays at x = 10 and jumps over obstacles that scroll in from the
right, picking up coins on the way. A run ends when the last of three lives is lost
(defeat), when the score reaches 4000 (victory), on Esc, or when the window closes.
Around the run sit a progress record (coin balance, list of best scores, owned skins),
a shop that sells three skins, a skin selector and a best-score screen.

The model is purely functional. Each tick of `run_game`'s loop is
`RunLoop.Step(state, events, draws)`. The events are the ones polled that tick. The
draws are the values the source takes from `random`, each limited to the range the
source draws from. There is no other hidden input.

| module | file | what it models |
|---|---|---|
| `Physics` | physics.dfy | `Player.jump`, `fall`, `update`: gravity 0.5, impulse -15, floor line 550 |
| `Entities` | entities.dfy | `Obstacle.update`, `Coin.update`, one `Group.update` pass, rectangle overlap, coin pickup |
| `Difficulty` | difficulty.dfy | starting speed per tier (easy/medium/hard) and the +0.2 escalation every 1000 points |
| `Spawn` | spawn.dfy | the coin roll, the obstacle eligibility test, the chance formula and obstacle spacing |
| `Progress` | progress.dfy | the progress record |
| `RunLoop` | runloop.dfy | the per-tick state machine of `run_game`, its invariant, and runs of many ticks |
| `Shop` | shop.dfy | the purchase rule of `shop` |
| `Skins` | skins.dfy | the index logic of `select_skin` |
| `Scores` | scores.dfy | the top-five list of `view_best_scores` |

Numbers are exact. Positions and velocities are Dafny `real`s. Obstacle speeds are
integers in tenths (30, 50 and 70 for the tiers, plus 2 per escalation), so every
escalation is exactly 0.2.

Behaviour of privet.py that is easy to misread (the model follows the code):

- **Two moves per tick.** Obstacles and coins are members both of `all_sprites` and of
  their own group. Both groups are updated every tick (privet.py:358-360, 365-366,
  382-383). So each obstacle moves twice its speed per tick and each coin moves 2 units.
  An entity killed in the first pass is not moved again (`Entities.ScrollObstacles`).
- **Spawn-time speed.** Each obstacle keeps the speed it was created with
  (privet.py:381). Later escalations do not speed it up.
- **Escalation timing.** The escalation check runs before `score += 1`. The first 0.2
  rise therefore takes effect on the tick that raises the score from 1000 to 1001
  (`Difficulty.Escalations`).
- **Quit saves nothing.** A window-close event only clears `running`. The rest of that
  tick still runs and nothing is saved. Only Esc and defeat write the progress file
  (`RunLoop.Saves`).
- **Keys work while paused.** Events are handled even while paused, so a jump or a
  drop still moves the player. A paused tick with no key presses changes nothing.
- **No victory flag.** `victory` is always false when it is tested, because setting
  it is followed by `return`. The model has no such flag: the Victory outcome ends the
  run.

## Model

| member | source | states |
|---|---|---|
| Physics.Update | privet.py:94-103 | the new height is always within [0, 550]; reaching the floor means at rest and grounded; grounded is never cleared; in free flight both velocity and height gain gravity; above the top edge the player is clamped to 0 with velocity 0 |
| Physics.NoDoubleJump | privet.py:84-87 | jumping again right after a jump changes nothing (no air jump) |
| Physics.FallIsRest | privet.py:89-103 | after the drop to the floor the player is at rest, gravity leaves it there, and a jump is possible again |
| Physics.RestIsStable | privet.py:94-100 | a player at rest on the floor is a fixed point of the gravity update |
| Physics.StartIsGroundedAboveFloor | privet.py:77-99 | the starting player is grounded at y = 500, above the floor, and stays grounded after one update: grounded does not imply standing on the floor |
| Physics.JumpArc | privet.py:78-103 | in exact arithmetic, k <= 58 updates after a jump from rest the player is airborne at 550 - 15k + k(k+1)/4 with velocity -15 + k/2 |
| Physics.JumpLandsAfter59Ticks | privet.py:84-103 | in exact arithmetic, a jump from rest is airborne for updates 1 to 58 and is back at rest after exactly 59 |
| Entities.UpdateObstacles | privet.py:119-122 | one update pass keeps exactly the moved obstacles that are not left of -50, each as many times as before; none of the survivors is left of -50 |
| Entities.UpdateCoins | privet.py:134-137 | one update pass keeps exactly the moved coins that are not left of -30, each as many times as before |
| Entities.UpdateObstaclesAppend | privet.py:119-122 | a pass keeps insertion order: updating a concatenation is updating each part and concatenating |
| Entities.NewestStaysLast | privet.py:119-122 | the newest obstacle stays last after a pass when it survives it, moved one of its steps |
| Entities.UpdatedObstacleOrigin | privet.py:119-122 | every surviving obstacle is some input obstacle moved once by its own speed |
| Entities.UpdatedCoinOrigin | privet.py:134-137 | every surviving coin is some input coin moved left by one |
| Entities.ScrolledObstacleOrigin | privet.py:358-359 | after the two passes of a tick, every obstacle is an old one with the same speed, shape, colour and height, moved left by twice its speed |
| Entities.ScrolledCoinOrigin | privet.py:358-360 | after the two passes of a tick, every coin is an old one moved left by 2 |
| Entities.ScrolledNewestStaysLast | privet.py:358-359 | after both passes of a tick, the newest obstacle is still last if it survived both, moved two of its steps |
| Entities.AnyHit | privet.py:393 | the collision test is true iff some obstacle's rectangle strictly overlaps the player's |
| Entities.CollectCoins | privet.py:404 | the coins split into kept and taken with nothing lost or added; every taken coin overlaps the player and no kept coin does |
| Entities.CollectCountsOverlaps | privet.py:404-407 | the number of coins taken is the number removed; with no overlapping coin nothing is taken; every coin that does not overlap is kept |
| Difficulty.Escalate | privet.py:387-389 | the speed never drops; it rises by exactly 0.2 iff the score has reached the threshold, and then the threshold moves on by 1000; otherwise nothing changes |
| Difficulty.InitialPaceOnSchedule | privet.py:331-340 | every tier starts on the escalation schedule at score 0 (its own speed, threshold 1000), and easy < medium < hard |
| Difficulty.EscalateOnSchedule | privet.py:387-391 | if speed and threshold match the schedule for the score (start + 0.2 per completed thousand), they still match after one tick |
| Difficulty.EscalationsStep | privet.py:387-389 | the number of escalations goes up by one exactly on the ticks whose check sees 1000, 2000, 3000, ... and is otherwise unchanged |
| Difficulty.EasySchedule | privet.py:331-389 | the easy tier runs at 3 for every score up to 1000, at 3.2 for scores 1001 to 2000 and at 3.4 for scores 2001 to 3000 |
| Spawn.SpawnCoin | privet.py:363-367 | a coin appears iff fewer than 5 were created and the roll is 1; it is appended at (850, 520) after the existing coins, which stay as they were, and the counter rises by one exactly then; the counter never passes 5 |
| Spawn.Chance | privet.py:373 | the spawn chance is between 1 and 10: 1 below score 800, score // 400 up to 4399, 10 from 4000 on |
| Spawn.SpawnTestReadsNewest | privet.py:358-369 | when the newest obstacle survives the tick, the spawn test is decided by its position after the two passes against the 650 line |
| Spawn.SpawnObstacle | privet.py:369-384 | an obstacle is appended iff the newest one is left of 650 (or there is none) and the roll is below twice the chance; it sits at the old anchor plus the drawn offset and carries the current speed; the existing obstacles stay in place, in order; otherwise obstacles and anchor are unchanged |
| Spawn.AnchorAdvances | privet.py:370-384 | the anchor increases iff an obstacle was created, and then by 150 to 300 |
| Spawn.ObstacleRollBands | privet.py:373-375 | below score 800 only a roll of 1 spawns; in the last band a run reaches, 3600 to 3999, rolls 1 to 17 spawn |
| RunLoop.Start | privet.py:313-340 | the initial run state satisfies the run invariant: score 0, not paused, no entities, the new player with 3 lives, no coins created, anchor 850, the tier's speed with threshold 1000, and the caller's progress record |
| RunLoop.ApplyKey | privet.py:346-352 | Space and the right arrow jump, the down arrow drops to the floor, P flips the pause flag, and other keys change nothing; only the player and the pause flag can change, and lives never do |
| RunLoop.HandleEvents | privet.py:343-355 | events change only the player and the pause flag; Esc is reported iff pressed; without Esc, quit is reported iff a quit event came; events with no key presses leave the state as it was |
| RunLoop.HandleEventsSnoc | privet.py:343-352 | a key press appended to Esc-free events acts, through ApplyKey, on the state the earlier events left, and does not change the quit report |
| RunLoop.PauseFollowsPresses | privet.py:343-352 | after the events of a tick the pause flag has flipped once per P press before the first Esc |
| RunLoop.OnlyMoveKeysMovePlayer | privet.py:343-350 | without Space, right-arrow or down-arrow presses before the first Esc, the events leave the player untouched |
| RunLoop.Moved | privet.py:357-391 | the moving part of a tick raises the score by one and applies gravity; the scrolled obstacles and coins are all kept, in order, with at most one new one appended to each; a coin is created iff fewer than 5 have been and the coin roll is 1, and the coins are then the scrolled coins plus one at (850, 520); it escalates per Escalate; the anchor moves by 150 to 300 iff there is no scrolled obstacle or the newest one is left of 650, and the obstacle roll is below twice the score's chance |
| RunLoop.Collide | privet.py:393-415 | one life is lost iff some obstacle overlaps, whatever the number, and no obstacle is removed; defeat iff the last life is lost, with the score appended to best scores; otherwise overlapping coins are removed and paid out one each, and victory iff score >= 4000 |
| RunLoop.Step | privet.py:342-431 | Esc ends the tick iff pressed; a paused tick leaves what the events left; an unpaused tick scores exactly one point; quit ends the run unless defeat or victory did; skins never change and coins never drop; best scores gain exactly the final score on defeat |
| RunLoop.TickCollides | privet.py:357-407 | an unpaused tick that Esc did not end loses exactly one life iff the moved player overlaps a moved obstacle, and is a defeat iff that was the last life; old obstacles that survive both passes are all still there, in order; the coin counter, anchor and pace stay as the moving part left them; otherwise no remaining coin overlaps the player, every non-overlapping coin stays, and the balance rises by the number taken |
| RunLoop.PausedTickIsIdle | privet.py:357-428 | a paused tick without key presses leaves the whole state unchanged |
| RunLoop.ObstaclesKeepSpeed | privet.py:380-389 | after a tick, each obstacle is an old one with its old speed moved two steps, or the new one at the new anchor with the pre-escalation speed |
| RunLoop.MovedObstacleOrigins | privet.py:358-384 | after the moving part, each obstacle is an old one moved two of its own steps left, or the one just spawned, which sits at the new anchor with the speed before escalation |
| RunLoop.StepKeepsInv | privet.py:357-415 | from a running state: lives stay in [0, 3], the count of coins created rises by at most one per tick and stays in [0, 5], the score stays at most 4000, defeat iff lives reach 0, victory only at exactly 4000, and a run that goes on keeps the invariant |
| RunLoop.MovedKeepsSettled | privet.py:357-391 | the moving part of a tick keeps every invariant fact except the score bound, and the score stays at most 4000 |
| RunLoop.CollideKeepsInv | privet.py:393-415 | the collision step keeps lives in [0, 3]; defeat iff lives reach 0; victory only at 4000; the invariant holds if the run goes on |
| RunLoop.HandledPlayerInRange | privet.py:346-350 | key presses keep the player between the top edge and the floor |
| RunLoop.MovedObstaclesInRange | privet.py:369-389 | after the moving part, each obstacle is at or left of the anchor, and its speed lies between the tier's start and the current speed |
| RunLoop.RunKeepsInv | privet.py:342-415 | over any number of ticks: a running state keeps the invariant; the score rises by at most one per tick; best scores gain exactly the final score on defeat and nothing otherwise; skins never change; coins never drop; the count of coins created never drops and never passes 5 |
| Shop.Buy | privet.py:294-308 | the record changes iff coins >= price and the skin is not owned; then the price is paid and the name appended once; a non-negative balance stays non-negative |
| Shop.BuyIsIdempotent | privet.py:294-297 | buying the same item twice in a row equals buying it once |
| Shop.BuyKeepsSkinsDistinct | privet.py:294-297 | purchases never make a skin owned twice |
| Shop.BuyWithExactCoins | privet.py:272-297 | 5 coins buy the first skin (price 5) and leave 0; a second purchase is refused as already owned |
| Skins.IndexOf | privet.py:214 | the first position at which the name occurs in the list |
| Skins.InitialSkin | privet.py:209-216 | the first shown index is in [0, 8); it names the last owned skin when that name is in the list, and is 0 otherwise |
| Skins.NextSkin | privet.py:240-241 | the right arrow stays in [0, 8), moves one on and wraps 7 to 0 |
| Skins.PrevSkin | privet.py:242-243 | the left arrow stays in [0, 8), moves one back and wraps 0 to 7 |
| Skins.NextPrevInverse | privet.py:240-243 | left undoes right and right undoes left |
| Skins.BoughtSkinShownFirst | privet.py:208-216 | after buying one of the shop's skins, the selector opens on that skin, one of the last three |
| Scores.Insert | privet.py:253 | inserting into a descending list keeps it descending, adds exactly the new score, and puts the larger of the new score and the old head first |
| Scores.SortDesc | privet.py:253 | the sorted list is descending and is a permutation of the scores |
| Scores.TopScores | privet.py:253 | the view is descending, has min(5, n) entries, all drawn from the recorded scores, and every score left out is at most every score shown |
| Scores.BestIsFirst | privet.py:253-255 | the first line of the view is the highest recorded score |

## Left out

- Rendering, fonts, images and `draw_text` (privet.py:20-47, 417-431): presentation only.
- Sound playback (privet.py:25-31 and each `.play()`): side effects with no effect on state.
- Reading and writing `progress.json` (privet.py:50-67): file I/O. A run only reports through `RunLoop.Saves` whether it ends where the source saves.
- Event polling, `pygame.time.wait` and the frame clock (privet.py:343, 401, 414, 431): events are a parameter of each tick.
- The `random` module: each draw is a parameter limited to its range; distributions are not modelled.
- pygame's integer `Rect` coordinates: the source adds fractional amounts (gravity 0.5, speed 3.2) to integer rectangle fields. The model keeps exact values instead of pygame's integer conversion.
- Physics.JumpArc, Physics.JumpLandsAfter59Ticks, Physics.StartIsGroundedAboveFloor: these state the exact-arithmetic heights. With pygame's truncating integer `rect.y` the start player stays at 500 rather than 500.5, and the landing tick of a jump can differ.
- `spritecollide` and `Group` internals: collisions are a strict rectangle overlap, and groups are sequences in insertion order.
- The blocking menu loops of `main_menu` and `level_selection`, their `exit()` calls, and the progress reset on window close in the menus (privet.py:140-199, 234-238, 261-265, 288-292): these are navigation, not simulation.
- `select_skin` does not check ownership: any of the eight skins can be chosen. The model keeps this (`Skins.ChosenFile`).
- A difficulty name other than easy, medium or hard leaves `obstacle_speed` unbound in the source, which raises an error the first time it is read. `Difficulty.InitialSpeed`, `Difficulty.InitialPaceOnSchedule` and `RunLoop.Start` require a known tier instead.

=== FILE: difficulty.dfy ===
/** The difficulty tiers and the speed escalation of run_game in privet.py.
    Speeds are in tenths of a unit per update: 30, 50 and 70 for the tiers, and
    2 (that is, 0.2) per escalation. */
module Difficulty {

  /** The tier names run_game knows; any other name leaves the starting speed unset. */
  predicate IsTier(d: string)
  {
    d == "easy" || d == "medium" || d == "hard"
  }

  const FirstThreshold: int := 1000
  const ThresholdStep: int := 1000
  /** 0.2 units per update, in tenths. */
  const SpeedStep: int := 2

  /** The starting obstacle speed of a tier: 3, 5 or 7 units per update. */
  function InitialSpeed(d: string): (t: int)
    requires IsTier(d)
    ensures d == "easy" ==> t == 30
    ensures d == "medium" ==> t == 50
    ensures d == "hard" ==> t == 70
  {
    if d == "easy" then 30 else if d == "medium" then 50 else 70
  }

  /** The current obstacle speed and the score at which it next goes up. */
  datatype Pace = Pace(speed: int, threshold: int)

  function InitialPace(d: string): Pace
    requires IsTier(d)
  {
    Pace(InitialSpeed(d), FirstThreshold)
  }

  /** The escalation check of one tick, made before the score goes up: once the
      score has reached the threshold, speed rises by 0.2 and the threshold moves on
      by 1000. The speed never goes down. */
  function Escalate(score: int, p: Pace): (r: Pace)
    ensures r.speed >= p.speed
    ensures score >= p.threshold <==> r.speed == p.speed + SpeedStep
    ensures score >= p.threshold ==> r.threshold == p.threshold + ThresholdStep
    ensures score < p.threshold ==> r == p
  {
    if score >= p.threshold then Pace(p.speed + SpeedStep, p.threshold + ThresholdStep) else p
  }

  /** How many escalations a run has made by the time its score is `score`: the
      check sees score 1000 on the tick that raises it to 1001, so the k-th rise is
      in effect from score 1000k + 1 on. */
  function Escalations(score: nat): nat
  {
    if score == 0 then 0 else (score - 1) / ThresholdStep
  }

  /** The pace a run of the tier with starting speed `init` has at `score`. */
  predicate OnSchedule(init: int, score: nat, p: Pace)
  {
    && p.speed == init + SpeedStep * Escalations(score)
    && p.threshold == FirstThreshold + ThresholdStep * Escalations(score)
  }

  /** A run starts on schedule, with harder tiers faster from the first tick. */
  lemma InitialPaceOnSchedule(d: string)
    requires IsTier(d)
    ensures OnSchedule(InitialSpeed(d), 0, InitialPace(d))
    ensures InitialSpeed("easy") < InitialSpeed("medium") < InitialSpeed("hard")
  {
  }

  /** One tick (escalation check, then score + 1) keeps the pace on schedule. */
  lemma EscalateOnSchedule(init: int, score: nat, p: Pace)
    requires OnSchedule(init, score, p)
    ensures OnSchedule(init, score + 1, Escalate(score, p))
  {
    var k := Escalations(score);
    if score > 0 {
      assert 1000 * k <= score - 1 < 1000 * k + 1000;
      if score >= p.threshold {
        assert score == 1000 * k + 1000;
        assert score / 1000 == k + 1;
      } else {
        assert score / 1000 == k;
      }
    }
  }

  /** Escalations goes up by exactly one on the ticks whose check sees a score of
      1000, 2000, 3000, ..., and otherwise stays put. */
  lemma EscalationsStep(score: nat)
    ensures Escalations(score + 1) ==
            Escalations(score) + (if score > 0 && score % ThresholdStep == 0 then 1 else 0)
  {
    if score > 0 {
      var k := (score - 1) / 1000;
      assert 1000 * k <= score - 1 < 1000 * k + 1000;
      if score % 1000 == 0 {
        assert score == 1000 * k + 1000;
      }
    }
  }

  /** The easy tier: 3 per update up to score 1000, 3.2 from 1001, 3.4 from 2001. */
  lemma EasySchedule()
    ensures forall score: nat :: score <= 1000 ==> InitialSpeed("easy") + SpeedStep * Escalations(score) == 30
    ensures forall score: nat :: 1001 <= score <= 2000 ==> InitialSpeed("easy") + SpeedStep * Escalations(score) == 32
    ensures forall score: nat :: 2001 <= score <= 3000 ==> InitialSpeed("easy") + SpeedStep * Escalations(score) == 34
  {
  }
}

=== FILE: entities.dfy ===
/** The scrolling entities (classes Obstacle and Coin in privet.py) and the
    rectangle-overlap test the run loop uses for collisions.

    Obstacle speeds are kept in tenths of a unit per tick, so that the 0.2 steps
    of the difficulty escalation stay exact integers. Positions are exact reals. */
module Entities {
  import opened Physics

  const ScreenWidth: real := 800.0
  const ObstacleSize: real := 50.0
  const CoinSize: real := 30.0
  /** An obstacle is removed once its left edge is left of this line. */
  const ObstacleExitX: real := -50.0
  /** A coin is removed once its left edge is left of this line. */
  const CoinExitX: real := -30.0
  /** Coins scroll one unit per update, whatever the obstacle speed is. */
  const CoinStep: real := 1.0

  datatype Shape = Square | Triangle
  datatype Color = Black | Red | Blue

  /** An obstacle keeps the speed (in tenths) it was given when it was spawned. */
  datatype Obstacle = Obstacle(x: real, y: real, speed: int, shape: Shape, color: Color)
  datatype Coin = Coin(x: real, y: real)

  /** A speed in tenths as a distance per update. */
  function Distance(tenths: int): real
  {
    tenths as real / 10.0
  }

  /** Obstacle.update before its removal test: move left by its own speed. */
  function MoveObstacle(o: Obstacle): (r: Obstacle)
    ensures r.x == o.x - Distance(o.speed)
    ensures r.(x := o.x) == o
  {
    o.(x := o.x - Distance(o.speed))
  }

  predicate ObstacleGone(o: Obstacle)
  {
    o.x < ObstacleExitX
  }

  /** Coin.update before its removal test: move left by one. */
  function MoveCoin(c: Coin): (r: Coin)
    ensures r.x == c.x - CoinStep && r.y == c.y
  {
    c.(x := c.x - CoinStep)
  }

  predicate CoinGone(c: Coin)
  {
    c.x < CoinExitX
  }

  /** Every obstacle moved once, before any is removed. */
  function MovedObstacles(os: seq<Obstacle>): (r: seq<Obstacle>)
    ensures |r| == |os|
    ensures forall i :: 0 <= i < |os| ==> r[i] == MoveObstacle(os[i])
  {
    seq(|os|, i requires 0 <= i < |os| => MoveObstacle(os[i]))
  }

  function MovedCoins(cs: seq<Coin>): (r: seq<Coin>)
    ensures |r| == |cs|
    ensures forall i :: 0 <= i < |cs| ==> r[i] == MoveCoin(cs[i])
  {
    seq(|cs|, i requires 0 <= i < |cs| => MoveCoin(cs[i]))
  }

  /** One Group.update() pass over the obstacles, in insertion order: each one moves,
      and those that have left the screen are killed. The result is exactly the moved
      obstacles that are still on screen, each as often as before. */
  function UpdateObstacles(os: seq<Obstacle>): (r: seq<Obstacle>)
    ensures |r| <= |os|
    ensures forall o :: o in r ==> !ObstacleGone(o)
    ensures forall o :: !ObstacleGone(o) ==> multiset(r)[o] == multiset(MovedObstacles(os))[o]
  {
    if |os| == 0 then []
    else
      var o := MoveObstacle(os[0]);
      var rest := UpdateObstacles(os[1..]);
      assert MovedObstacles(os) == [o] + MovedObstacles(os[1..]);
      if ObstacleGone(o) then rest else [o] + rest
  }

  /** One Group.update() pass over the coins. */
  function UpdateCoins(cs: seq<Coin>): (r: seq<Coin>)
    ensures |r| <= |cs|
    ensures forall c :: c in r ==> !CoinGone(c)
    ensures forall c :: !CoinGone(c) ==> multiset(r)[c] == multiset(MovedCoins(cs))[c]
  {
    if |cs| == 0 then []
    else
      var c := MoveCoin(cs[0]);
      var rest := UpdateCoins(cs[1..]);
      assert MovedCoins(cs) == [c] + MovedCoins(cs[1..]);
      if CoinGone(c) then rest else [c] + rest
  }

  /** Every obstacle that survives an update pass is some obstacle of the pass's
      input moved once by its own speed; in particular, its speed is unchanged. */
  lemma UpdatedObstacleOrigin(os: seq<Obstacle>)
    ensures forall o :: o in UpdateObstacles(os) ==> exists q :: q in os && o == MoveObstacle(q)
  {
    var r := UpdateObstacles(os);
    forall o | o in r
      ensures exists q :: q in os && o == MoveObstacle(q)
    {
      assert multiset(r)[o] > 0;
      assert o in multiset(MovedObstacles(os));
      var j :| 0 <= j < |os| && MovedObstacles(os)[j] == o;
      assert os[j] in os;
    }
  }

  lemma UpdatedCoinOrigin(cs: seq<Coin>)
    ensures forall c :: c in UpdateCoins(cs) ==> exists q :: q in cs && c == MoveCoin(q)
  {
    var r := UpdateCoins(cs);
    forall c | c in r
      ensures exists q :: q in cs && c == MoveCoin(q)
    {
      assert multiset(r)[c] > 0;
      assert c in multiset(MovedCoins(cs));
      var j :| 0 <= j < |cs| && MovedCoins(cs)[j] == c;
      assert cs[j] in cs;
    }
  }

  /** A pass treats the obstacles one at a time in insertion order, so it keeps
      their order: updating a concatenation updates each part in place. */
  lemma {:induction false} UpdateObstaclesAppend(a: seq<Obstacle>, b: seq<Obstacle>)
    ensures UpdateObstacles(a + b) == UpdateObstacles(a) + UpdateObstacles(b)
  {
    if |a| > 0 {
      assert (a + b)[0] == a[0];
      assert (a + b)[1..] == a[1..] + b;
      UpdateObstaclesAppend(a[1..], b);
    } else {
      assert a + b == b;
    }
  }

  /** The newest obstacle (the last in insertion order) stays last after a pass
      when it survives it. */
  lemma NewestStaysLast(os: seq<Obstacle>)
    requires |os| > 0
    ensures var r := UpdateObstacles(os);
            !ObstacleGone(MoveObstacle(os[|os| - 1])) ==>
              |r| > 0 && r[|r| - 1] == MoveObstacle(os[|os| - 1])
  {
    var last := os[|os| - 1];
    var once := MoveObstacle(last);
    if !ObstacleGone(once) {
      var older := os[..|os| - 1];
      assert os == older + [last];
      UpdateObstaclesAppend(older, [last]);
      assert UpdateObstacles([last]) == [once] by {
        assert [last][1..] == [];
      }
      assert UpdateObstacles(os) == UpdateObstacles(older) + [once];
    }
  }

  /** One tick of scrolling in run_game. Obstacles and coins are members both of
      all_sprites and of their own group, and both groups are updated each tick, so
      every obstacle and coin takes two update passes per tick; one killed in the
      first pass has left its group and skips the second. */
  function ScrollObstacles(os: seq<Obstacle>): seq<Obstacle>
  {
    UpdateObstacles(UpdateObstacles(os))
  }

  function ScrollCoins(cs: seq<Coin>): seq<Coin>
  {
    UpdateCoins(UpdateCoins(cs))
  }

  /** An obstacle still on screen after a tick of scrolling came from one obstacle
      of the previous tick, has its speed, and is two of its own steps further left. */
  lemma ScrolledObstacleOrigin(os: seq<Obstacle>)
    ensures forall o :: o in ScrollObstacles(os) ==>
              && !ObstacleGone(o)
              && exists q :: q in os && o == q.(x := q.x - 2.0 * Distance(q.speed))
  {
    UpdatedObstacleOrigin(os);
    UpdatedObstacleOrigin(UpdateObstacles(os));
  }

  /** After the two passes of a tick, the newest obstacle is still the last one if
      it survived both. */
  lemma ScrolledNewestStaysLast(os: seq<Obstacle>)
    requires |os| > 0
    ensures var last := os[|os| - 1];
            var r := ScrollObstacles(os);
            !ObstacleGone(MoveObstacle(last)) && !ObstacleGone(MoveObstacle(MoveObstacle(last))) ==>
              |r| > 0 && r[|r| - 1] == MoveObstacle(MoveObstacle(last))
  {
    var last := os[|os| - 1];
    var once, twice := MoveObstacle(last), MoveObstacle(MoveObstacle(last));
    if !ObstacleGone(once) && !ObstacleGone(twice) {
      var older := os[..|os| - 1];
      assert os == older + [last];
      UpdateObstaclesAppend(older, [last]);
      assert UpdateObstacles([last]) == [once] by {
        assert [last][1..] == [];
      }
      UpdateObstaclesAppend(UpdateObstacles(older), [once]);
      assert UpdateObstacles([once]) == [twice] by {
        assert [once][1..] == [];
      }
      assert ScrollObstacles(os) == ScrollObstacles(older) + [twice];
    }
  }

  /** A coin still on screen after a tick of scrolling is two units further left. */
  lemma ScrolledCoinOrigin(cs: seq<Coin>)
    ensures forall c :: c in ScrollCoins(cs) ==>
              && !CoinGone(c)
              && exists q :: q in cs && c == q.(x := q.x - 2.0 * CoinStep)
  {
    UpdatedCoinOrigin(cs);
    UpdatedCoinOrigin(UpdateCoins(cs));
  }


  /** An axis-aligned rectangle: top-left corner and size. */
  datatype Rect = Rect(x: real, y: real, w: real, h: real)

  /** pygame's Rect.colliderect: the open interiors intersect, so rectangles that
      only touch along an edge do not collide. */
  predicate Overlap(a: Rect, b: Rect)
  {
    a.x < b.x + b.w && b.x < a.x + a.w && a.y < b.y + b.h && b.y < a.y + a.h
  }

  function PlayerRect(p: Player): Rect
  {
    Rect(PlayerX, p.y, PlayerSize, PlayerSize)
  }

  predicate HitsObstacle(p: Player, o: Obstacle)
  {
    Overlap(PlayerRect(p), Rect(o.x, o.y, ObstacleSize, ObstacleSize))
  }

  predicate HitsCoin(p: Player, c: Coin)
  {
    Overlap(PlayerRect(p), Rect(c.x, c.y, CoinSize, CoinSize))
  }

  /** spritecollide(player, obstacles, False) is non-empty. */
  function AnyHit(p: Player, os: seq<Obstacle>): (b: bool)
    ensures b <==> exists i :: 0 <= i < |os| && HitsObstacle(p, os[i])
  {
    if |os| == 0 then false
    else HitsObstacle(p, os[0]) || AnyHit(p, os[1..])
  }

  /** The outcome of spritecollide(player, coins, True): the coins left in the
      group, in order, and the coins taken. */
  datatype Pickup = Pickup(kept: seq<Coin>, taken: seq<Coin>)

  /** Removes every coin the player overlaps. The coins are split, none lost and none
      invented, into those touching the player and those that are not. */
  function CollectCoins(p: Player, cs: seq<Coin>): (r: Pickup)
    ensures multiset(r.kept) + multiset(r.taken) == multiset(cs)
    ensures forall c :: c in r.kept ==> !HitsCoin(p, c)
    ensures forall c :: c in r.taken ==> HitsCoin(p, c)
  {
    if |cs| == 0 then Pickup([], [])
    else
      var rest := CollectCoins(p, cs[1..]);
      assert cs == [cs[0]] + cs[1..];
      if HitsCoin(p, cs[0]) then
        assert multiset([cs[0]] + rest.taken) == multiset{cs[0]} + multiset(rest.taken);
        Pickup(rest.kept, [cs[0]] + rest.taken)
      else
        assert multiset([cs[0]] + rest.kept) == multiset{cs[0]} + multiset(rest.kept);
        Pickup([cs[0]] + rest.kept, rest.taken)
  }

  /** The number of coins taken is the number of coins the player overlaps. */
  lemma CollectCountsOverlaps(p: Player, cs: seq<Coin>)
    ensures |CollectCoins(p, cs).taken| == |cs| - |CollectCoins(p, cs).kept|
    ensures (forall i :: 0 <= i < |cs| ==> !HitsCoin(p, cs[i])) ==> CollectCoins(p, cs).taken == []
    ensures forall c :: c in cs && !HitsCoin(p, c) ==> c in CollectCoins(p, cs).kept
  {
    var r := CollectCoins(p, cs);
    assert |multiset(r.kept) + multiset(r.taken)| == |multiset(cs)|;
    assert forall c :: c in r.taken ==> c in multiset(cs);
    forall c | c in cs && !HitsCoin(p, c)
      ensures c in r.kept
    {
      assert c in multiset(cs);
      assert c !in r.taken;
    }
  }
}

=== FILE: physics.dfy ===
/** Vertical motion of the runner's avatar (class Player in privet.py): the jump,
    the drop-to-floor move and the per-tick gravity update.

    Coordinates grow downwards, as on the screen: y = 0 is the top edge and the
    floor line is y = 550. Velocities and positions are exact reals, because the
    gravity constant is one half. */
module Physics {

  const ScreenHeight: real := 600.0
  /** The floor line: the player's top edge when standing (SCREEN_HEIGHT - 50). */
  const FloorY: real := ScreenHeight - 50.0
  /** Where a run starts the player: 100 above the bottom, already marked grounded. */
  const StartY: real := ScreenHeight - 100.0
  /** The player never moves horizontally. */
  const PlayerX: real := 10.0
  const PlayerSize: real := 50.0
  const JumpSpeed: real := -15.0
  const Gravity: real := 0.5
  const StartLives: int := 3

  datatype Player = Player(y: real, vy: real, onGround: bool, lives: int)

  /** The player a run starts with: at y = 500, at rest, grounded, three lives. */
  function NewPlayer(): Player
  {
    Player(StartY, 0.0, true, StartLives)
  }

  /** Standing still on the floor line. */
  predicate AtRest(p: Player)
  {
    p.y == FloorY && p.vy == 0.0 && p.onGround
  }

  /** Jump: only a grounded player takes the upward impulse; in the air it is ignored. */
  function Jump(p: Player): (r: Player)
    ensures p.onGround ==> r.vy == JumpSpeed && !r.onGround
    ensures !p.onGround ==> r == p
    ensures r.y == p.y && r.lives == p.lives
  {
    if p.onGround then p.(vy := JumpSpeed, onGround := false) else p
  }

  /** Fall: the instant drop to the floor line, from wherever the player is. */
  function Fall(p: Player): (r: Player)
    ensures AtRest(r)
    ensures r.lives == p.lives
  {
    p.(y := FloorY, onGround := true, vy := 0.0)
  }

  /** One tick of gravity: accelerate, move, then clamp to the floor and to the
      top edge. Gravity is applied even to a grounded player. */
  function Update(p: Player): (r: Player)
    ensures 0.0 <= r.y <= FloorY
    ensures p.y + p.vy + Gravity >= FloorY ==> AtRest(r)
    ensures p.onGround ==> r.onGround
    ensures 0.0 <= p.y + p.vy + Gravity < FloorY ==>
              r.y == p.y + p.vy + Gravity && r.vy == p.vy + Gravity && r.onGround == p.onGround
    ensures p.y + p.vy + Gravity < 0.0 ==> r.y == 0.0 && r.vy == 0.0 && r.onGround == p.onGround
    ensures r.lives == p.lives
  {
    var vy := p.vy + Gravity;
    var y := p.y + vy;
    var landed := if y >= FloorY then p.(y := FloorY, onGround := true, vy := 0.0)
                  else p.(y := y, vy := vy);
    if landed.y < 0.0 then landed.(y := 0.0, vy := 0.0) else landed
  }

  /** A second jump in the air does nothing: there is no double jump. */
  lemma NoDoubleJump(p: Player)
    ensures Jump(Jump(p)) == Jump(p)
  {
  }

  /** Dropping to the floor leaves the player resting there, and able to jump again. */
  lemma FallIsRest(p: Player)
    ensures Update(Fall(p)) == Fall(p)
    ensures Jump(Fall(p)).vy == JumpSpeed && !Jump(Fall(p)).onGround
  {
  }

  /** A player resting on the floor stays there tick after tick. */
  lemma RestIsStable(p: Player)
    requires AtRest(p)
    ensures Update(p) == p
  {
  }

  /** The grounded flag does not imply standing on the floor: the start position is
      50 above it, yet the first tick of gravity leaves the player grounded (at
      500.5 in exact arithmetic). */
  lemma StartIsGroundedAboveFloor()
    ensures NewPlayer().onGround && NewPlayer().y < FloorY
    ensures Update(NewPlayer()).onGround && Update(NewPlayer()).y == StartY + Gravity
  {
  }

  /** n ticks of Update. */
  function Ticks(p: Player, n: nat): Player
  {
    if n == 0 then p else Update(Ticks(p, n - 1))
  }

  /** The integer facts behind the arc: how k(k+1) grows, and that the arc stays
      strictly between the top edge and the floor for 1 <= k <= 58. */
  lemma ArcArithmetic(k: int)
    requires 1 <= k <= 58
    ensures k * (k + 1) == (k - 1) * k + 2 * k
    ensures k * (k + 1) < 60 * k
    ensures 2200 - 60 * k + k * (k + 1) > 0
  {
    assert k * (k + 1) == k * k + k;
    assert (k - 1) * k == k * k - k;
    assert k * (k + 1) < k * 60;
    if k >= 37 {
      assert k * (k + 1) >= k * 38;
    }
  }

  /** Closed form of the jump arc in exact arithmetic: k ticks after a jump from
      rest (k <= 58) the player is airborne at y = 550 - 15k + k(k+1)/4 with velocity -15 + k/2
      (both stated times four and two, to stay in integers). */
  lemma {:induction false} JumpArc(p: Player, k: nat)
    requires AtRest(p) && k <= 58
    ensures var q := Ticks(Jump(p), k);
            && 4.0 * q.y == (2200 - 60 * k + k * (k + 1)) as real
            && 2.0 * q.vy == (k - 30) as real
            && !q.onGround && q.lives == p.lives
  {
    if k > 0 {
      JumpArc(p, k - 1);
      var q0 := Ticks(Jump(p), k - 1);
      ArcArithmetic(k);
      var y := q0.y + q0.vy + Gravity;
      assert 4.0 * y == (2200 - 60 * k + k * (k + 1)) as real;
      assert 0.0 <= y < FloorY;
      assert Ticks(Jump(p), k) == Update(q0);
    }
  }

  /** In exact arithmetic, a jump from rest stays in the air for 58 ticks and
      lands, at rest again, on the 59th. pygame's integer rectangle would truncate
      each height and change this count. */
  lemma JumpLandsAfter59Ticks(p: Player)
    requires AtRest(p)
    ensures forall k: nat :: 1 <= k <= 58 ==> !Ticks(Jump(p), k).onGround
    ensures Ticks(Jump(p), 59) == p
  {
    forall k: nat | 1 <= k <= 58
      ensures !Ticks(Jump(p), k).onGround
    {
      JumpArc(p, k);
    }
    JumpArc(p, 58);
  }
}

=== FILE: progress.dfy ===
/** The persistent progress record of privet.py (the JSON document with keys
    coins, best_scores and skins), as the run loop and the menus see it in memory. */
module Progress {

  /** coins: the balance; bestScores: every recorded final score, in the order they
      were recorded; skins: the names of the owned skins, in purchase order. */
  datatype Progress = Progress(coins: int, bestScores: seq<int>, skins: seq<string>)
}

=== FILE: runloop.dfy ===
/** The body of run_game in privet.py as a deterministic state machine: one call of
    Step is one iteration of its `while running` loop, with the polled events and
    the random draws given as parameters. Rendering, sounds, the frame wait and
    the file writes are not modelled; a terminal outcome says whether privet.py
    saves the progress record at that point. */
module RunLoop {
  import opened Physics
  import opened Entities
  import opened Difficulty
  import opened Spawn
  import opened Progress

  /** The score that ends a run in victory. */
  const WinScore: int := 4000

  /** The loop's local state: the player (with its lives), the score, the pause flag,
      the number of coins created so far, last_obstacle_x (the anchor), the obstacle
      speed and its next escalation threshold, the live obstacles and coins in
      insertion order, and the progress record the run updates. */
  datatype RunState = RunState(
    player: Player,
    score: nat,
    paused: bool,
    coinsSpawned: int,
    anchor: real,
    pace: Pace,
    obstacles: seq<Obstacle>,
    coins: seq<Coin>,
    progress: Progress)

  datatype Key = Space | RightArrow | DownArrow | PKey | Escape | OtherKey
  datatype Event = QuitEvent | KeyDown(key: Key) | OtherEvent

  /** How a tick ends: the loop goes on, or the run is over by losing the last life,
      by reaching the winning score, by Esc, or by the window's quit event. */
  datatype Outcome = Continue | Defeat | Victory | EscapeExit | QuitExit

  /** The run ends where run_game writes the progress file: on defeat and on Esc.
      Victory and quit leave the in-memory record updated but unsaved. */
  predicate Saves(o: Outcome)
  {
    o == Defeat || o == EscapeExit
  }

  datatype Tick = Tick(state: RunState, outcome: Outcome)

  /** The state run_game sets up for a tier; the tier must be one of the three known. */
  function Start(difficulty: string, progress: Progress): (s: RunState)
    requires IsTier(difficulty)
    ensures Inv(s, InitialSpeed(difficulty))
    ensures s.score == 0 && !s.paused && s.obstacles == [] && s.coins == [] && s.progress == progress
    ensures s.player == NewPlayer() && s.player.lives == StartLives
    ensures s.coinsSpawned == 0 && s.anchor == FirstAnchor
    ensures s.pace == Pace(InitialSpeed(difficulty), FirstThreshold)
  {
    RunState(NewPlayer(), 0, false, 0, FirstAnchor, InitialPace(difficulty), [], [], progress)
  }

  /** What a reachable, still-running state satisfies, for a run whose tier starts
      at speed `init`. */
  predicate Inv(s: RunState, init: int)
  {
    Settled(s, init) && s.score < WinScore
  }

  /** Inv without the bound on the score: what holds between score + 1 and the
      victory check. */
  predicate Settled(s: RunState, init: int)
  {
    && init > 0
    && 0 <= s.coinsSpawned <= CoinCap
    && 1 <= s.player.lives <= StartLives
    && 0.0 <= s.player.y <= FloorY
    && OnSchedule(init, s.score, s.pace)
    && FirstAnchor <= s.anchor
    && (forall o :: o in s.obstacles ==> init <= o.speed <= s.pace.speed && o.x <= s.anchor)
  }

  /** A key press. Space and the right arrow jump, the down arrow drops to the floor,
      P toggles the pause; these act whether or not the game is paused. */
  function ApplyKey(s: RunState, k: Key): (r: RunState)
    ensures r == s.(player := r.player, paused := r.paused)
    ensures r.player.lives == s.player.lives
    ensures r.paused != s.paused <==> k == PKey
    ensures k in {Space, RightArrow} ==> r == s.(player := Jump(s.player))
    ensures k == DownArrow ==> r == s.(player := Fall(s.player))
    ensures k == PKey ==> r == s.(paused := !s.paused)
    ensures k !in {Space, RightArrow, DownArrow, PKey} ==> r == s
  {
    match k
    case Space => s.(player := Jump(s.player))
    case RightArrow => s.(player := Jump(s.player))
    case DownArrow => s.(player := Fall(s.player))
    case PKey => s.(paused := !s.paused)
    case _ => s
  }

  /** The events of a tick, after the poll: the state they leave, whether Esc was
      pressed (which returns at once, skipping the rest), and whether a quit event
      was seen (which only stops the loop after this tick). */
  datatype Handled = Handled(state: RunState, escaped: bool, quit: bool)

  /** How many times key k is pressed among the events before the first Esc. */
  function Presses(evs: seq<Event>, k: Key): nat
  {
    if |evs| == 0 || evs[0] == KeyDown(Escape) then 0
    else Presses(evs[1..], k) + (if evs[0] == KeyDown(k) then 1 else 0)
  }

  /** The events in order, each key before the first Esc acting as ApplyKey says. */
  function HandleEvents(s: RunState, evs: seq<Event>, quit: bool): (h: Handled)
    ensures h.state == s.(player := h.state.player, paused := h.state.paused)
    ensures h.state.player.lives == s.player.lives
    ensures h.escaped <==> KeyDown(Escape) in evs
    ensures !h.escaped ==> (h.quit <==> quit || QuitEvent in evs)
    ensures (forall i :: 0 <= i < |evs| ==> !evs[i].KeyDown?) ==> h.state == s
    decreases |evs|
  {
    if |evs| == 0 then Handled(s, false, quit)
    else
      match evs[0]
      case QuitEvent =>
        var h := HandleEvents(s, evs[1..], true);
        assert evs == [evs[0]] + evs[1..];
        h
      case OtherEvent =>
        var h := HandleEvents(s, evs[1..], quit);
        assert evs == [evs[0]] + evs[1..];
        h
      case KeyDown(k) =>
        if k == Escape then Handled(s, true, quit)
        else
          var h := HandleEvents(ApplyKey(s, k), evs[1..], quit);
          assert evs == [evs[0]] + evs[1..];
          h
  }

  /** The pause flag flips once per P press before the first Esc, whether or not
      the game is paused. */
  lemma {:induction false} PauseFollowsPresses(s: RunState, evs: seq<Event>, quit: bool)
    ensures HandleEvents(s, evs, quit).state.paused == (s.paused != (Presses(evs, PKey) % 2 == 1))
    decreases |evs|
  {
    if |evs| > 0 && evs[0] != KeyDown(Escape) {
      var next := if evs[0].KeyDown? then ApplyKey(s, evs[0].key) else s;
      var q := quit || evs[0] == QuitEvent;
      PauseFollowsPresses(next, evs[1..], q);
      assert HandleEvents(s, evs, quit) == HandleEvents(next, evs[1..], q);
      var n := Presses(evs[1..], PKey);
      if evs[0] == KeyDown(PKey) {
        assert next.paused == !s.paused && Presses(evs, PKey) == n + 1;
        assert ((n + 1) % 2 == 1) == (n % 2 != 1);
      } else {
        assert next.paused == s.paused && Presses(evs, PKey) == n;
      }
    }
  }

  /** Without Space, the right arrow or the down arrow before the first Esc, the
      player is untouched by the events. */
  lemma {:induction false} OnlyMoveKeysMovePlayer(s: RunState, evs: seq<Event>, quit: bool)
    ensures Presses(evs, Space) + Presses(evs, RightArrow) + Presses(evs, DownArrow) == 0 ==>
              HandleEvents(s, evs, quit).state.player == s.player
    decreases |evs|
  {
    if |evs| > 0 && evs[0] != KeyDown(Escape) &&
       Presses(evs, Space) + Presses(evs, RightArrow) + Presses(evs, DownArrow) == 0 {
      var next := if evs[0].KeyDown? then ApplyKey(s, evs[0].key) else s;
      var q := quit || evs[0] == QuitEvent;
      OnlyMoveKeysMovePlayer(next, evs[1..], q);
      assert HandleEvents(s, evs, quit) == HandleEvents(next, evs[1..], q);
      assert next.player == s.player;
    }
  }

  /** Each key press acts on the state the earlier events left: appending a key
      other than Esc to events without Esc applies that key afterwards. */
  lemma {:induction false} HandleEventsSnoc(s: RunState, evs: seq<Event>, quit: bool, k: Key)
    requires KeyDown(Escape) !in evs && k != Escape
    ensures HandleEvents(s, evs + [KeyDown(k)], quit).state == ApplyKey(HandleEvents(s, evs, quit).state, k)
    ensures HandleEvents(s, evs + [KeyDown(k)], quit).quit == HandleEvents(s, evs, quit).quit
    decreases |evs|
  {
    if |evs| == 0 {
      assert [KeyDown(k)][1..] == [];
    } else {
      var next := if evs[0].KeyDown? then ApplyKey(s, evs[0].key) else s;
      var q := quit || evs[0] == QuitEvent;
      assert (evs + [KeyDown(k)])[0] == evs[0];
      assert (evs + [KeyDown(k)])[1..] == evs[1..] + [KeyDown(k)];
      HandleEventsSnoc(next, evs[1..], q, k);
      assert HandleEvents(s, evs, quit) == HandleEvents(next, evs[1..], q);
      assert HandleEvents(s, evs + [KeyDown(k)], quit) == HandleEvents(next, evs[1..] + [KeyDown(k)], q);
    }
  }

  /** The collision and victory checks, on a state whose entities have moved and
      whose score has just gone up. Any number of overlapping obstacles costs one
      life, and no obstacle is removed; losing the last life records the score and
      ends the run before the coins are looked at. Otherwise every overlapping coin
      is removed and paid out, and a score of 4000 or more is a victory. */
  function Collide(s: RunState): (t: Tick)
    ensures t.state.obstacles == s.obstacles
    ensures t.state == s.(player := t.state.player, coins := t.state.coins, progress := t.state.progress)
    ensures t.state.player == s.player.(lives := t.state.player.lives)
    ensures t.state.player.lives == s.player.lives - (if AnyHit(s.player, s.obstacles) then 1 else 0)
    ensures t.outcome in {Continue, Defeat, Victory}
    ensures t.outcome == Defeat <==> AnyHit(s.player, s.obstacles) && s.player.lives <= 1
    ensures t.outcome == Defeat ==>
              t.state.progress == s.progress.(bestScores := s.progress.bestScores + [s.score])
              && t.state.coins == s.coins
    ensures t.outcome != Defeat ==>
              && t.state.progress.bestScores == s.progress.bestScores
              && t.state.progress.skins == s.progress.skins
              && t.state.progress.coins == s.progress.coins + (|s.coins| - |t.state.coins|)
              && multiset(t.state.coins) <= multiset(s.coins)
              && (forall c :: c in t.state.coins ==> !HitsCoin(s.player, c))
              && (forall c :: c in s.coins && !HitsCoin(s.player, c) ==> c in t.state.coins)
    ensures t.outcome == Victory <==> t.outcome != Defeat && s.score >= WinScore
  {
    var hit := AnyHit(s.player, s.obstacles);
    var hurt := if hit then s.player.(lives := s.player.lives - 1) else s.player;
    if hit && hurt.lives <= 0 then
      Tick(s.(player := hurt, progress := s.progress.(bestScores := s.progress.bestScores + [s.score])), Defeat)
    else
      var pick := CollectCoins(hurt, s.coins);
      CollectCountsOverlaps(hurt, s.coins);
      assert PlayerRect(hurt) == PlayerRect(s.player);
      var after := s.(player := hurt, coins := pick.kept,
                      progress := s.progress.(coins := s.progress.coins + |pick.taken|));
      Tick(after, if after.score >= WinScore then Victory else Continue)
  }

  /** The movement and spawning of an unpaused tick, in run_game's order: the
      player falls, obstacles and coins scroll, the coin roll, the obstacle roll, the
      escalation check, score + 1; then the collision and victory checks. */
  function Moved(s: RunState, d: Draws): (m: RunState)
    requires ValidDraws(d)
    ensures m.score == s.score + 1 && m.paused == s.paused && m.progress == s.progress
    ensures m.player == Update(s.player)
    ensures m.coinsSpawned == s.coinsSpawned || (m.coinsSpawned == s.coinsSpawned + 1 && s.coinsSpawned < CoinCap)
    ensures m.coinsSpawned == s.coinsSpawned + 1 <==> |m.coins| == |ScrollCoins(s.coins)| + 1
    ensures m.pace == Escalate(s.score, s.pace)
    ensures m.anchor == s.anchor || MinDistance as real <= m.anchor - s.anchor <= MaxDistance as real
    ensures m.anchor != s.anchor <==> |m.obstacles| == |ScrollObstacles(s.obstacles)| + 1
    ensures ScrollObstacles(s.obstacles) <= m.obstacles && |m.obstacles| <= |ScrollObstacles(s.obstacles)| + 1
    ensures ScrollCoins(s.coins) <= m.coins && |m.coins| <= |ScrollCoins(s.coins)| + 1
    ensures m.coinsSpawned == s.coinsSpawned + 1 <==> s.coinsSpawned < CoinCap && d.coinRoll == 1
    ensures m.coinsSpawned == s.coinsSpawned + 1 ==> m.coins == ScrollCoins(s.coins) + [Coin(CoinSpawnX, CoinSpawnY)]
    ensures m.anchor != s.anchor <==> Eligible(ScrollObstacles(s.obstacles)) && d.obstacleRoll < 2 * Chance(s.score)
  {
    var cs := SpawnCoin(ScrollCoins(s.coins), s.coinsSpawned, d.coinRoll);
    var os := SpawnObstacle(ScrollObstacles(s.obstacles), s.anchor, s.pace.speed, s.score, d);
    s.(player := Update(s.player),
       coins := cs.coins, coinsSpawned := cs.spawned,
       obstacles := os.obstacles, anchor := os.anchor,
       pace := Escalate(s.score, s.pace),
       score := s.score + 1)
  }

  /** One iteration of the run loop. Events come first; Esc returns at once. A
      paused tick does nothing more. An unpaused tick moves, spawns, escalates,
      scores and collides; a quit event then ends the loop unless the tick had
      already ended the run. */
  function Step(s: RunState, evs: seq<Event>, d: Draws): (t: Tick)
    requires ValidDraws(d)
    ensures t.outcome == EscapeExit <==> KeyDown(Escape) in evs
    ensures t.outcome == QuitExit ==> QuitEvent in evs
    ensures QuitEvent in evs && KeyDown(Escape) !in evs && t.outcome !in {Defeat, Victory} ==>
              t.outcome == QuitExit
    ensures (t.outcome == EscapeExit || t.state.paused) ==>
              t.state == HandleEvents(s, evs, false).state
    ensures t.outcome != EscapeExit && !t.state.paused ==> t.state.score == s.score + 1
    ensures t.outcome == EscapeExit || t.state.paused ==> t.state.score == s.score
    ensures t.state.progress.skins == s.progress.skins
    ensures t.state.progress.coins >= s.progress.coins
    ensures t.state.progress.bestScores ==
              s.progress.bestScores + (if t.outcome == Defeat then [t.state.score] else [])
  {
    var h := HandleEvents(s, evs, false);
    if h.escaped then Tick(h.state, EscapeExit)
    else if h.state.paused then Tick(h.state, if h.quit then QuitExit else Continue)
    else
      var t := Collide(Moved(h.state, d));
      if t.outcome == Continue && h.quit then Tick(t.state, QuitExit) else t
  }

  /** An unpaused tick that Esc did not end runs the collision step on the moved
      state: overlapping any obstacle costs exactly one life, and defeat comes iff
      that was the last one; otherwise every coin the moved player overlaps is taken
      and paid out and the others stay. Old obstacles that survive both scrolling
      passes are all still there, in order, and none is removed by a collision. */
  lemma TickCollides(s: RunState, evs: seq<Event>, d: Draws)
    requires ValidDraws(d)
    ensures var h := HandleEvents(s, evs, false);
            var m := Moved(h.state, d);
            var t := Step(s, evs, d);
            !h.escaped && !h.state.paused ==>
              && t.state.player == m.player.(lives := t.state.player.lives)
              && t.state.player.lives == s.player.lives - (if AnyHit(m.player, m.obstacles) then 1 else 0)
              && (t.outcome == Defeat <==> AnyHit(m.player, m.obstacles) && s.player.lives <= 1)
              && t.state.obstacles == m.obstacles
              && ScrollObstacles(s.obstacles) <= t.state.obstacles
              && t.state.coinsSpawned == m.coinsSpawned && t.state.anchor == m.anchor && t.state.pace == m.pace
              && (t.outcome == Defeat ==> t.state.coins == m.coins)
              && (t.outcome != Defeat ==>
                    && (forall c :: c in t.state.coins ==> !HitsCoin(m.player, c))
                    && (forall c :: c in m.coins && !HitsCoin(m.player, c) ==> c in t.state.coins)
                    && t.state.progress.coins == s.progress.coins + (|m.coins| - |t.state.coins|))
  {
    var h := HandleEvents(s, evs, false);
    if !h.escaped && !h.state.paused {
      var m := Moved(h.state, d);
      var c := Collide(m);
      assert Step(s, evs, d).state == c.state;
      assert h.state.obstacles == s.obstacles && h.state.progress == s.progress;
      assert m.player.lives == s.player.lives;
    }
  }

  /** A paused tick without key presses changes nothing at all. */
  lemma PausedTickIsIdle(s: RunState, evs: seq<Event>, d: Draws)
    requires ValidDraws(d) && s.paused
    requires forall i :: 0 <= i < |evs| ==> !evs[i].KeyDown?
    ensures Step(s, evs, d).state == s
    ensures Step(s, evs, d).outcome == (if QuitEvent in evs then QuitExit else Continue)
  {
  }

  /** Every obstacle after a tick is either one from before, with its own speed,
      shape, colour and height, moved two of its steps left, or the one just
      spawned at the new anchor with the speed the run had before this tick's
      escalation. Escalation never touches existing obstacles. */
  lemma ObstaclesKeepSpeed(s: RunState, evs: seq<Event>, d: Draws)
    requires ValidDraws(d)
    ensures var t := Step(s, evs, d);
            t.outcome != EscapeExit && !t.state.paused ==>
              forall o :: o in t.state.obstacles ==>
                || (exists q :: q in s.obstacles && o == q.(x := q.x - 2.0 * Distance(q.speed)))
                || (o.speed == s.pace.speed && o.x == t.state.anchor)
  {
    var t := Step(s, evs, d);
    var h := HandleEvents(s, evs, false);
    if t.outcome != EscapeExit && !t.state.paused {
      var m := Moved(h.state, d);
      assert t.state.obstacles == Collide(m).state.obstacles == m.obstacles;
      assert t.state.anchor == m.anchor;
      MovedObstacleOrigins(h.state, d);
    }
  }

  /** The obstacles after the movement step: scrolled old ones, or the new one at
      the new anchor with the speed before escalation. */
  lemma MovedObstacleOrigins(s: RunState, d: Draws)
    requires ValidDraws(d)
    ensures var m := Moved(s, d);
            forall o :: o in m.obstacles ==>
              || (exists q :: q in s.obstacles && o == q.(x := q.x - 2.0 * Distance(q.speed)))
              || (o.speed == s.pace.speed && o.x == m.anchor)
  {
    var m := Moved(s, d);
    var scrolled := ScrollObstacles(s.obstacles);
    var os := SpawnObstacle(scrolled, s.anchor, s.pace.speed, s.score, d);
    assert m.obstacles == os.obstacles && m.anchor == os.anchor;
    ScrolledObstacleOrigin(s.obstacles);
    forall o | o in m.obstacles
      ensures || (exists q :: q in s.obstacles && o == q.(x := q.x - 2.0 * Distance(q.speed)))
              || (o.speed == s.pace.speed && o.x == m.anchor)
    {
      if o !in scrolled {
        assert o.speed == s.pace.speed && o.x == os.anchor;
      }
    }
  }

  /** A still-running tick keeps the invariant, and whatever the outcome, lives stay
      within 0..3, at most five coins are ever created, and the score never passes
      4000. Defeat comes exactly with the last life lost; victory exactly when the
      score reaches 4000. */
  lemma StepKeepsInv(s: RunState, init: int, evs: seq<Event>, d: Draws)
    requires Inv(s, init) && ValidDraws(d)
    ensures var t := Step(s, evs, d);
            && 0 <= t.state.player.lives <= StartLives
            && 0 <= t.state.coinsSpawned <= CoinCap
            && s.coinsSpawned <= t.state.coinsSpawned <= s.coinsSpawned + 1
            && t.state.score <= WinScore
            && (t.outcome == Defeat <==> t.state.player.lives == 0)
            && (t.outcome == Victory ==> t.state.score == WinScore)
            && (t.outcome in {Continue, QuitExit, EscapeExit} ==> Inv(t.state, init))
  {
    var h := HandleEvents(s, evs, false);
    assert Inv(h.state, init) by {
      assert h.state == s.(player := h.state.player, paused := h.state.paused);
      HandledPlayerInRange(s, evs, false);
    }
    if !h.escaped && !h.state.paused {
      MovedKeepsSettled(h.state, init, d);
      CollideKeepsInv(Moved(h.state, d), init);
    }
  }

  /** The movement step keeps everything but the score bound, and the score stays
      at most 4000. */
  lemma MovedKeepsSettled(s: RunState, init: int, d: Draws)
    requires Inv(s, init) && ValidDraws(d)
    ensures Settled(Moved(s, d), init) && Moved(s, d).score <= WinScore
  {
    var m := Moved(s, d);
    EscalateOnSchedule(init, s.score, s.pace);
    assert OnSchedule(init, m.score, m.pace);
    MovedObstaclesInRange(s, init, d);
    assert 0 <= m.coinsSpawned <= CoinCap;
    assert 1 <= m.player.lives <= StartLives;
    assert 0.0 <= m.player.y <= FloorY;
    assert FirstAnchor <= m.anchor;
  }

  /** The collision step: defeat exactly when the last life goes, victory only at
      4000, and the invariant for a run that goes on. */
  lemma CollideKeepsInv(m: RunState, init: int)
    requires Settled(m, init) && m.score <= WinScore
    ensures var t := Collide(m);
            && 0 <= t.state.player.lives <= StartLives
            && (t.outcome == Defeat <==> t.state.player.lives == 0)
            && (t.outcome == Victory ==> t.state.score == WinScore)
            && (t.outcome == Continue ==> Inv(t.state, init))
  {
  }

  /** Key presses keep the player between the top edge and the floor. */
  lemma HandledPlayerInRange(s: RunState, evs: seq<Event>, quit: bool)
    requires 0.0 <= s.player.y <= FloorY
    ensures 0.0 <= HandleEvents(s, evs, quit).state.player.y <= FloorY
    decreases |evs|
  {
    if |evs| > 0 && evs[0].KeyDown? && evs[0].key != Escape {
      HandledPlayerInRange(ApplyKey(s, evs[0].key), evs[1..], quit);
    } else if |evs| > 0 && !evs[0].KeyDown? {
      HandledPlayerInRange(s, evs[1..], evs[0] == QuitEvent || quit);
    }
  }

  /** After the movement step, obstacles still sit at or left of the anchor and
      carry a speed between the tier's start and the current speed. */
  lemma MovedObstaclesInRange(s: RunState, init: int, d: Draws)
    requires Inv(s, init) && ValidDraws(d)
    ensures forall o :: o in Moved(s, d).obstacles ==>
              init <= o.speed <= Moved(s, d).pace.speed && o.x <= Moved(s, d).anchor
  {
    var m := Moved(s, d);
    MovedObstacleOrigins(s, d);
    assert init <= s.pace.speed <= m.pace.speed;
    assert s.anchor <= m.anchor;
  }

  /** One tick's input: the polled events and the draws. */
  datatype Frame = Frame(events: seq<Event>, draws: Draws)

  /** The loop over a sequence of frames, stopping at the first terminal outcome. */
  function Run(s: RunState, frames: seq<Frame>): Tick
    requires forall i :: 0 <= i < |frames| ==> ValidDraws(frames[i].draws)
    decreases |frames|
  {
    if |frames| == 0 then Tick(s, Continue)
    else
      var t := Step(s, frames[0].events, frames[0].draws);
      if t.outcome != Continue then t else Run(t.state, frames[1..])
  }

  /** Over any number of ticks: a run that is still going keeps the invariant; the
      score rises by at most one per tick; the best scores gain exactly the final
      score on defeat and nothing otherwise; the owned skins never change, the
      coin balance never drops, and the count of coins created only grows, never
      past five. */
  lemma {:induction false} RunKeepsInv(s: RunState, init: int, frames: seq<Frame>)
    requires Inv(s, init)
    requires forall i :: 0 <= i < |frames| ==> ValidDraws(frames[i].draws)
    ensures var t := Run(s, frames);
            && (t.outcome == Continue ==> Inv(t.state, init))
            && 0 <= t.state.player.lives <= StartLives
            && s.coinsSpawned <= t.state.coinsSpawned <= CoinCap
            && s.score <= t.state.score <= s.score + |frames|
            && t.state.progress.bestScores ==
                 s.progress.bestScores + (if t.outcome == Defeat then [t.state.score] else [])
            && t.state.progress.skins == s.progress.skins
            && t.state.progress.coins >= s.progress.coins
            && (t.outcome == Victory ==> t.state.score == WinScore)
    decreases |frames|
  {
    if |frames| > 0 {
      var t := Step(s, frames[0].events, frames[0].draws);
      StepKeepsInv(s, init, frames[0].events, frames[0].draws);
      if t.outcome == Continue {
        RunKeepsInv(t.state, init, frames[1..]);
      }
    }
  }
}

=== FILE: scores.dfy ===
/** The best-score screen of privet.py: the recorded scores, sorted from highest
    to lowest, cut to the first five. */
module Scores {

  const ShownScores: nat := 5

  predicate SortedDesc(s: seq<int>)
  {
    forall i, j :: 0 <= i < j < |s| ==> s[i] >= s[j]
  }

  /** Inserts x into a descending list, keeping it descending. */
  function Insert(x: int, s: seq<int>): (r: seq<int>)
    requires SortedDesc(s)
    ensures SortedDesc(r)
    ensures multiset(r) == multiset(s) + multiset{x}
    ensures |r| == |s| + 1
    ensures r[0] == if |s| == 0 || x >= s[0] then x else s[0]
  {
    if |s| == 0 || x >= s[0] then [x] + s
    else
      var rest := Insert(x, s[1..]);
      assert s == [s[0]] + s[1..];
      assert s[0] >= rest[0];
      [s[0]] + rest
  }

  /** sorted(scores, reverse=True): the same scores, highest first. */
  function SortDesc(s: seq<int>): (r: seq<int>)
    ensures SortedDesc(r)
    ensures multiset(r) == multiset(s)
    ensures |r| == |s|
  {
    if |s| == 0 then []
    else
      assert s == [s[0]] + s[1..];
      Insert(s[0], SortDesc(s[1..]))
  }

  /** The view: the five highest scores (fewer if fewer are recorded), highest
      first; every score left out is at most every score shown. */
  function TopScores(s: seq<int>): (r: seq<int>)
    ensures SortedDesc(r)
    ensures |r| == if |s| < ShownScores then |s| else ShownScores
    ensures multiset(r) <= multiset(s)
    ensures forall x, i :: x in multiset(s) - multiset(r) && 0 <= i < |r| ==> x <= r[i]
  {
    var sorted := SortDesc(s);
    var n := if |sorted| < ShownScores then |sorted| else ShownScores;
    PrefixIsTop(s, sorted, n);
    sorted[..n]
  }

  /** The first n of a descending arrangement of s are sorted, drawn from s, and at
      least as large as everything of s left out. */
  lemma PrefixIsTop(s: seq<int>, sorted: seq<int>, n: nat)
    requires SortedDesc(sorted) && multiset(sorted) == multiset(s) && n <= |sorted|
    ensures SortedDesc(sorted[..n])
    ensures multiset(sorted[..n]) <= multiset(s)
    ensures forall x, i :: x in multiset(s) - multiset(sorted[..n]) && 0 <= i < n ==> x <= sorted[..n][i]
  {
    SplitMultiset(sorted, n);
    TailBelowHead(sorted, n);
  }

  /** Cutting a list at n splits its multiset into the two parts. */
  lemma SplitMultiset(s: seq<int>, n: nat)
    requires n <= |s|
    ensures multiset(s[..n]) <= multiset(s)
    ensures multiset(s) - multiset(s[..n]) == multiset(s[n..])
  {
    assert s == s[..n] + s[n..];
    var a, b := multiset(s[..n]), multiset(s[n..]);
    assert multiset(s) == a + b;
    assert forall x :: (a + b - a)[x] == b[x];
  }

  /** In a descending list, everything after position n is at most everything before. */
  lemma TailBelowHead(sorted: seq<int>, n: nat)
    requires SortedDesc(sorted) && n <= |sorted|
    ensures forall x, i :: x in multiset(sorted[n..]) && 0 <= i < n ==> x <= sorted[..n][i]
  {
    forall x, i | x in multiset(sorted[n..]) && 0 <= i < n
      ensures x <= sorted[..n][i]
    {
      assert x in sorted[n..];
      var k :| 0 <= k < |sorted[n..]| && sorted[n..][k] == x;
      assert sorted[n + k] == x;
    }
  }

  /** The highest recorded score is shown first. */
  lemma BestIsFirst(s: seq<int>)
    requires |s| > 0
    ensures forall k :: 0 <= k < |s| ==> s[k] <= TopScores(s)[0]
  {
    var r := TopScores(s);
    forall k | 0 <= k < |s|
      ensures s[k] <= r[0]
    {
      if s[k] !in multiset(r) {
        assert s[k] in multiset(s) - multiset(r);
      } else {
        var i :| 0 <= i < |r| && r[i] == s[k];
      }
    }
  }
}

=== FILE: shop.dfy ===
/** The purchase rule of the shop screen in privet.py: three skins for sale, each
    bought at most once, paid for from the coin balance. */
module Shop {
  import opened Progress

  const ShopSkins: seq<string> := ["Бобер", "Шлепа", "Огузок"]
  const ShopPrices: seq<int> := [5, 5, 10]

  /** The guard of a purchase: enough coins, and the skin not owned yet. */
  predicate CanBuy(p: Progress, item: nat)
    requires item < |ShopSkins|
  {
    p.coins >= ShopPrices[item] && ShopSkins[item] !in p.skins
  }

  /** Pressing the key of item 0, 1 or 2. A purchase that passes the guard pays the
      price and appends the skin's name once; one that does not changes nothing.
      The record changes (and privet.py saves it) exactly when the purchase goes
      through, and a balance that was not negative never becomes negative. */
  function Buy(p: Progress, item: nat): (r: Progress)
    requires item < |ShopSkins|
    ensures r != p <==> CanBuy(p, item)
    ensures CanBuy(p, item) ==>
              && r.coins == p.coins - ShopPrices[item]
              && r.skins == p.skins + [ShopSkins[item]]
              && r.bestScores == p.bestScores
    ensures ShopSkins[item] in r.skins <==> ShopSkins[item] in p.skins || CanBuy(p, item)
    ensures p.coins >= 0 ==> r.coins >= 0
  {
    if CanBuy(p, item) then
      p.(coins := p.coins - ShopPrices[item], skins := p.skins + [ShopSkins[item]])
    else p
  }

  /** Buying the same item twice in a row is the same as buying it once. */
  lemma BuyIsIdempotent(p: Progress, item: nat)
    requires item < |ShopSkins|
    ensures Buy(Buy(p, item), item) == Buy(p, item)
  {
  }

  predicate NoDuplicates(xs: seq<string>)
  {
    forall i, j :: 0 <= i < j < |xs| ==> xs[i] != xs[j]
  }

  /** Purchases never make a skin owned twice. */
  lemma BuyKeepsSkinsDistinct(p: Progress, item: nat)
    requires item < |ShopSkins| && NoDuplicates(p.skins)
    ensures NoDuplicates(Buy(p, item).skins)
  {
    if CanBuy(p, item) {
      var r := Buy(p, item);
      forall i, j | 0 <= i < j < |r.skins|
        ensures r.skins[i] != r.skins[j]
      {
        if j == |p.skins| {
          assert r.skins[i] == p.skins[i];
          assert p.skins[i] in p.skins;
        }
      }
    }
  }

  /** With 5 coins the first skin (price 5) is bought, leaving 0; buying it again is
      refused because it is owned. */
  lemma BuyWithExactCoins()
    ensures Buy(Progress(5, [], []), 0) == Progress(0, [], ["Бобер"])
    ensures Buy(Progress(0, [], ["Бобер"]), 0) == Progress(0, [], ["Бобер"])
    ensures Buy(Progress(9, [], ["Бобер"]), 0) == Progress(9, [], ["Бобер"])
  {
    assert "Бобер" in ["Бобер"];
  }
}

=== FILE: skins.dfy ===
/** The index logic of the skin selection screen in privet.py: which of the eight
    skins is shown first, and how the arrow keys move through them. */
module Skins {

  const SkinNames: seq<string> :=
    ["Skin 1", "Skin 2", "Skin 3", "Skin 4", "Skin 5", "Бобер", "Шлепа", "Огузок"]
  const SkinFiles: seq<string> :=
    ["skin_image1.png", "skin_image2.png", "skin_image3.png", "skin_image4.png",
     "skin_image5.png", "skin_image6.png", "skin_image7.png", "skin_image8.png"]

  /** list.index: the position of the first occurrence of x. */
  function IndexOf(xs: seq<string>, x: string): (i: nat)
    requires x in xs
    ensures i < |xs| && xs[i] == x
    ensures forall j :: 0 <= j < i ==> xs[j] != x
  {
    if xs[0] == x then 0 else 1 + IndexOf(xs[1..], x)
  }

  /** The skin shown first: the most recently bought one when its name is one of
      the eight, otherwise the first. */
  function InitialSkin(owned: seq<string>): (i: nat)
    ensures i < |SkinNames|
    ensures |owned| > 0 && owned[|owned| - 1] in SkinNames ==> SkinNames[i] == owned[|owned| - 1]
    ensures !(|owned| > 0 && owned[|owned| - 1] in SkinNames) ==> i == 0
  {
    if |owned| > 0 && owned[|owned| - 1] in SkinNames then IndexOf(SkinNames, owned[|owned| - 1])
    else 0
  }

  /** The right arrow: (i + 1) % 8. */
  function NextSkin(i: int): (r: int)
    ensures 0 <= r < |SkinNames|
    ensures 0 <= i < |SkinNames| - 1 ==> r == i + 1
    ensures i == |SkinNames| - 1 ==> r == 0
  {
    (i + 1) % |SkinNames|
  }

  /** The left arrow: (i - 1) % 8 with Python's modulo, which for a positive divisor
      agrees with Dafny's: the result is never negative, so 0 wraps to 7. */
  function PrevSkin(i: int): (r: int)
    ensures 0 <= r < |SkinNames|
    ensures 0 < i < |SkinNames| ==> r == i - 1
    ensures i == 0 ==> r == |SkinNames| - 1
  {
    (i - 1) % |SkinNames|
  }

  /** Left undoes right and right undoes left. */
  lemma NextPrevInverse(i: int)
    requires 0 <= i < |SkinNames|
    ensures PrevSkin(NextSkin(i)) == i
    ensures NextSkin(PrevSkin(i)) == i
  {
  }

  /** Enter returns the image file of the skin on screen. */
  function ChosenFile(i: int): (f: string)
    requires 0 <= i < |SkinNames|
    ensures f in SkinFiles
  {
    SkinFiles[i]
  }

  /** The three skins sold in the shop are the last three of the selection list, so
      after a purchase the selection opens on the skin just bought. */
  lemma BoughtSkinShownFirst(owned: seq<string>, name: string)
    requires name in ["Бобер", "Шлепа", "Огузок"]
    ensures SkinNames[InitialSkin(owned + [name])] == name
    ensures InitialSkin(owned + [name]) >= 5
  {
    var bought := owned + [name];
    assert bought[|bought| - 1] == name;
    assert name == SkinNames[5] || name == SkinNames[6] || name == SkinNames[7];
  }
}

=== FILE: spawn.dfy ===
/** The spawning rules of run_game in privet.py: when a coin appears, when and
    where an obstacle appears. The random draws run_game makes with
    random.randint and random.choice are parameters here, each constrained to the
    range privet.py draws it from. */
module Spawn {
  import opened Physics
  import opened Entities

  /** At most this many coins are created in one run. */
  const CoinCap: int := 5
  const CoinSpawnX: real := ScreenWidth + 50.0
  const CoinSpawnY: real := ScreenHeight - 80.0
  const MinDistance: int := 150
  const MaxDistance: int := 300
  /** A new obstacle is considered only once the newest one is left of this line. */
  const SpawnLine: real := ScreenWidth - 150.0
  /** last_obstacle_x at the start of a run. */
  const FirstAnchor: real := ScreenWidth + 50.0
  const GroundObstacleY: real := ScreenHeight - 50.0
  const RaisedObstacleY: real := ScreenHeight - 200.0

  /** The random draws of one unpaused tick: the coin roll randint(1, 100), the
      spacing randint(150, 300), the obstacle roll randint(1, 100), and the
      shape, colour and height choices. */
  datatype Draws = Draws(coinRoll: int, offset: int, obstacleRoll: int,
                         shape: Shape, color: Color, grounded: bool)

  predicate ValidDraws(d: Draws)
  {
    && 1 <= d.coinRoll <= 100
    && MinDistance <= d.offset <= MaxDistance
    && 1 <= d.obstacleRoll <= 100
  }

  datatype CoinSpawn = CoinSpawn(coins: seq<Coin>, spawned: int)

  /** The coin roll: below the cap, a roll under 2 appends one coin at the right
      edge and counts it. The counter counts coins created, not coins picked up. */
  function SpawnCoin(cs: seq<Coin>, spawned: int, roll: int): (r: CoinSpawn)
    requires 1 <= roll <= 100
    ensures r.spawned == spawned + 1 <==> spawned < CoinCap && roll == 1
    ensures r.spawned == spawned + 1 ==> r.coins == cs + [Coin(CoinSpawnX, CoinSpawnY)]
    ensures r.spawned != spawned + 1 ==> r == CoinSpawn(cs, spawned)
    ensures cs <= r.coins && |r.coins| <= |cs| + 1
    ensures spawned <= CoinCap ==> r.spawned <= CoinCap
  {
    if spawned < CoinCap && roll < 2 then CoinSpawn(cs + [Coin(CoinSpawnX, CoinSpawnY)], spawned + 1)
    else CoinSpawn(cs, spawned)
  }

  /** The obstacle spawn chance, max(1, min(10, score // 400)): 1 below score 800,
      score // 400 up to 4399, and 10 from there on. */
  function Chance(score: nat): (c: int)
    ensures 1 <= c <= 10
    ensures score < 800 ==> c == 1
    ensures 800 <= score < 4400 ==> c == score / 400
    ensures score >= 4000 ==> c == 10
  {
    var q := score / 400;
    if q < 1 then 1 else if q > 10 then 10 else q
  }

  /** A spawn is tried only with no obstacle on screen, or once the newest one (the
      last in insertion order) has scrolled left of the spawn line. */
  predicate Eligible(os: seq<Obstacle>)
  {
    |os| == 0 || os[|os| - 1].x < SpawnLine
  }

  /** When the newest obstacle survives both passes of a tick, the spawn test of
      that tick reads its position, moved two of its own steps left. */
  lemma SpawnTestReadsNewest(os: seq<Obstacle>)
    requires |os| > 0
    ensures var last := os[|os| - 1];
            !ObstacleGone(MoveObstacle(last)) && !ObstacleGone(MoveObstacle(MoveObstacle(last))) ==>
              (Eligible(ScrollObstacles(os)) <==> MoveObstacle(MoveObstacle(last)).x < SpawnLine)
  {
    ScrolledNewestStaysLast(os);
  }

  /** The obstacles after the spawn step, and last_obstacle_x. */
  datatype ObstacleSpawn = ObstacleSpawn(obstacles: seq<Obstacle>, anchor: real)

  /** The obstacle roll. When eligible, a candidate 150 to 300 right of the anchor
      is drawn, and it is created iff the roll is under twice the chance; only a
      created obstacle moves the anchor. It carries the current obstacle speed. */
  function SpawnObstacle(os: seq<Obstacle>, anchor: real, speed: int, score: nat, d: Draws): (r: ObstacleSpawn)
    requires ValidDraws(d)
    ensures |r.obstacles| == |os| + 1 <==> Eligible(os) && d.obstacleRoll < 2 * Chance(score)
    ensures |r.obstacles| == |os| + 1 ==>
              && r.anchor == anchor + d.offset as real
              && r.obstacles == os + [Obstacle(r.anchor, if d.grounded then GroundObstacleY else RaisedObstacleY,
                                               speed, d.shape, d.color)]
    ensures |r.obstacles| != |os| + 1 ==> r == ObstacleSpawn(os, anchor)
    ensures forall o :: o in r.obstacles ==> o in os || (o.speed == speed && o.x == r.anchor)
    ensures os <= r.obstacles && |r.obstacles| <= |os| + 1
    ensures r.anchor == anchor || (MinDistance as real <= r.anchor - anchor <= MaxDistance as real)
  {
    if Eligible(os) then
      var x := anchor + d.offset as real;
      if d.obstacleRoll < 2 * Chance(score) then
        var y := if d.grounded then GroundObstacleY else RaisedObstacleY;
        ObstacleSpawn(os + [Obstacle(x, y, speed, d.shape, d.color)], x)
      else ObstacleSpawn(os, anchor)
    else ObstacleSpawn(os, anchor)
  }

  /** The anchor only moves right: by 150 to 300 on a spawn, not at all otherwise. */
  lemma AnchorAdvances(os: seq<Obstacle>, anchor: real, speed: int, score: nat, d: Draws)
    requires ValidDraws(d)
    ensures var r := SpawnObstacle(os, anchor, speed, score, d);
            && (r.anchor > anchor <==> |r.obstacles| == |os| + 1)
            && (r.anchor > anchor ==> MinDistance as real <= r.anchor - anchor <= MaxDistance as real)
  {
  }

  /** Below score 800 only a roll of 1 creates an obstacle; in the last band a run
      reaches, 3600 to 3999 (chance 9), rolls 1 to 17 do. The spawn test reads the
      score before it goes up, and the run ends at 4000, so chance 10 is never used. */
  lemma ObstacleRollBands(os: seq<Obstacle>, anchor: real, speed: int, score: nat, d: Draws)
    requires ValidDraws(d) && Eligible(os)
    ensures var r := SpawnObstacle(os, anchor, speed, score, d);
            && (score < 800 ==> (|r.obstacles| == |os| + 1 <==> d.obstacleRoll == 1))
            && (3600 <= score < 4000 ==> (|r.obstacles| == |os| + 1 <==> d.obstacleRoll <= 17))
  {
  }
}
